=== FILE: README.md ===
# snc data-transfer engine in Dafny

A model of the core of snc (Simple NetCat), a point-to-point TCP transfer tool,
and proofs about that model. The tool has two roles. The receiver listens on a
port and accepts one connection. It then copies whatever `recv` returns to the
output stream. The transmitter connects to a receiver, reads its input one byte
at a time into a block buffer, and sends each full block with `send_data`. That
function retries partial sends. The leftover bytes are sent when the input ends
or the quit flag is seen. Both roles release what they acquired in one cleanup
block. The command line is parsed by argp through the `parse_opt` callback.

Modules:

- `Wrappers`: `Option` and `Result`.
- `Bytes`: the `byte` type and `Flatten`, which concatenates a list of chunks.
- `Session`: what both roles share:
  - the setup calls and the resources they acquire;
  - the cleanup block;
  - the quit flag;
  - the progress reports.
- `Transmit`: `send_data` and `snc_transmit` (`src/transmit.c`).
- `Receive`: `snc_receive` (`src/receive.c`).
- `Args`: `args_init`, `parse_opt` and `args_parse` (`src/args.c`).

The outside world is passed in as parameters:

- Each setup call (`getaddrinfo`, `socket`, `bind`, `listen`, `connect`,
  `accept`, `malloc`) is a boolean in `setupResults`.
- `send` is a function. `send(k, b)` is the reply to the k-th call of the
  session when that call is handed the bytes `b`. It never exceeds `|b|`;
  a negative reply is an error.
- The replies to `recv` are a list of `Data(bytes)` or `RecvError`. No payload
  is longer than the buffer.
- The quit flag is a list of booleans, indexed by the number of the check.
  Checks past the end of the list read false.
- The input stream is the list of bytes that `fgetc` returns before EOF.

The C loops can spin forever. The model therefore bounds `send` calls by a
`fuel` parameter, and a session whose oracle runs out ends as `Unfinished`.

## Behaviour of the code

- The transmitter reads with `fgetc`, one byte at a time. It sends only when
  the buffer is full and once more at the end.
- The byte read just before the quit flag is found set is never stored or sent.
- If the quit signal interrupts a blocked `send`, `recv` or `accept`, the -1 it
  returns is treated as fatal and the process exits with status 1
  (`src/transmit.c:148-149`, `src/receive.c:157-159`, `src/receive.c:191-192`).
- Only the first `getaddrinfo` result is used, and only IPv4 is requested.

## Model

| member | source | states |
|---|---|---|
| Session.RunSetup | src/receive.c:96-179 | The setup calls are issued in order and stop at the first failure, which is the last call issued. Setup succeeds exactly when every call succeeds, and then every step was issued. |
| Session.CleanupReleasesHeldOnce | src/receive.c:213-229 | The cleanup block releases each held resource exactly once and releases nothing that is not held. |
| Session.PartialReportsOfBlocks | src/transmit.c:147-156 | When every block sent has `size` bytes, the i-th partial progress report carries `(i + 1) * size`. |
| Transmit.SendData | src/transmit.c:46-60 | Each `send` call is handed the unsent suffix of the buffer, starting at `total_sent`, and gets the oracle's reply for exactly those bytes, as the next call of the session. The calls form a retry chain: the first starts at offset 0, and each later one starts where the bytes accepted by the previous call end. The result is true exactly when the last call took all it was handed (or the buffer was empty, with no call). It is false exactly when the last reply is negative. |
| Transmit.RetryChainDelivers | src/transmit.c:49-57 | Along a retry chain, the byte ranges that successive calls accepted concatenate to the prefix of the data sent so far. |
| Transmit.SendDataFidelity | src/transmit.c:46-60 | `send_data` returns true exactly when the accepted byte ranges concatenate to the whole buffer. Otherwise they are a proper prefix of it. |
| Transmit.Flush | src/transmit.c:148-149 | One `send_data` call from `snc_transmit` issues the session's next `send` calls, each answered by the oracle for the bytes it hands over, within the remaining budget. It returns true exactly when `send` accepted the whole block, in order, and false exactly when the last reply was negative. An empty block is sent without any call. |
| Transmit.StoreByte | src/transmit.c:140-157 | A byte that does not fill the buffer is only stored. A byte that fills it makes the next block, which a new `send_data` run sends; the step's result is that run's. While the flushes succeed, the blocks sent followed by the buffer are the input read so far, every block is full and was accepted whole by `send`, and one running total is reported per block. After a failed flush, the failing block is the last, and it is not counted in the reports. |
| Transmit.BlockLoop | src/transmit.c:137-158 | The copy loop stops at end of input, when the quit flag is seen, or when a flush fails, and then the final flush is skipped. The quit flag was clear at every check before a stored byte, and the byte read before the flag was seen is dropped. The blocks are the input bytes stored, in order, and all are full. Every run but the last sent its block in full. |
| Transmit.FailedLoopCopied | src/transmit.c:148-149 | A flush that fails inside the loop ends the copy: the failing block is the last handed to `send_data`, no final flush is made, and no final total is reported. |
| Transmit.FinalFlushCopied | src/transmit.c:160-175 | After a normal loop exit, the leftover buffer is sent as the last block, which is not full. The final progress total is the number of bytes stored, and it is reported exactly when that send succeeded. |
| Transmit.CopyToSocket | src/transmit.c:137-175 | The loop read the input up to where it stopped, and stopped only at the end of the input, when the quit flag was seen, or after a failed flush. The quit flag was clear at every check before a stored byte. The blocks handed to `send_data` concatenate to the input bytes stored, in order, and all but the last are full. A last block that is not full is sent only at the end of the input or once the quit flag was seen. A loop stopped by the quit flag ends with such a block, never with a failed full one, so the quit flag is never reported after a failed flush. Every `send` call belongs to one run over one block, every run before the last accepted its block in full, and the calls fit the send budget. The progress reports are one running total per block sent in the loop, then the final total if the last send succeeded. |
| Transmit.InLoopReports | src/transmit.c:147-156 | With progress on, the i-th report printed inside the copy loop carries `(i + 1) * bufSz`, because every block sent inside the loop is a full buffer. |
| Transmit.Transfer | src/transmit.c:137-175 | Everything `CopyToSocket` promises. In addition, some `send` reply was negative exactly when the copy failed. When it succeeded, the bytes `send` accepted, in order, are the stored input bytes, and they are all of the input unless the quit flag stopped the loop. |
| Transmit.SentBlocksDelivered | src/transmit.c:148-151 | A `send_data` run that returned true had `send` accept its whole block. |
| Transmit.FailedIffNegativeReply | src/transmit.c:148-165 | When the runs before the last all returned true, some `send` reply of the session was negative exactly when the last run returned false. |
| Transmit.ReturnedDelivers | src/transmit.c:137-175 | When every run returned true, the bytes `send` accepted, in order, are the stored input bytes, and all of the input when the loop was not stopped by the quit flag. |
| Transmit.SncTransmit | src/transmit.c:62-193 | The copy loop runs exactly when every setup call succeeds, and when it runs it read, blocked and sent the input as `CopyToSocket` says. The process exits with status 1 exactly when setup fails or some `send` reply is negative. A normal return has had `send` accept every stored byte, in order, which is the whole input unless the quit flag stopped the loop. Cleanup releases exactly the resources acquired. |
| Receive.RecvLoop | src/receive.c:188-202 | The loop checks the quit flag before every `recv`. It stops for the flag exactly when the flag is set at the check after a reply that carried data, or at the first check. Each `fwrite` writes exactly one positive `recv` payload, in order. A reply of 0 ends the loop as a peer close, and a negative reply ends it as a failure. The running total is the number of bytes written. |
| Receive.CopyFromSocket | src/receive.c:188-211 | As `RecvLoop`, plus the final progress total, which is reported unless `recv` failed. |
| Receive.ReceivedUnique | src/receive.c:188-202 | The `recv` replies and the quit flag determine the loop: two runs over them make the same calls, stop for the same reason and write the same payloads. |
| Receive.SncReceive | src/receive.c:53-233 | The copy loop runs exactly when every setup call succeeds. When it runs, its record is the one `RecvLoop` states for the replies and the quit flag: the calls made, why the loop stopped, and the payloads written. With progress on, the reports are a running total after each write, then the final total unless `recv` failed; with it off there are none. The output is the concatenation of the payloads received. The process exits with status 1 exactly when setup or a `recv` fails. Cleanup releases exactly the resources acquired. |
| Receive.SingleAccept | src/receive.c:127-159 | A receive session calls `accept` at most once, right after `listen` with a backlog of 10. It calls it exactly once when setup completes. |
| Args.ArgsInit | src/args.c:178-188 | The initial record has no mode, port "1337", no print flags and block size 0x1000, and it satisfies the field invariant. |
| Args.ParseOpt | src/args.c:115-174 | `parse_opt` reports an unknown key exactly for keys it does not handle. It calls `argp_usage` exactly for a rejected block size, or for the end key when no mode was given. It keeps the field invariant and never unsets a mode. |
| Args.ParseOptFrame | src/args.c:122-168 | Each option sets only its own fields, and repeating a print option changes nothing. |
| Args.ParseKeys | src/args.c:195 | Folding `parse_opt` over the keys keeps the field invariant and a chosen mode. A successful fold that ends with the end key has a mode. |
| Args.ParseKeysIsLastWins | src/args.c:123-158 | With no rejected block size, the fold gives the record where the last option of each kind wins and a print flag is set when its option occurs. |
| Args.ParseKeysRejectsBadBlockSize | src/args.c:137-145 | A rejected block size anywhere among the options ends the parse with a usage error. |
| Args.ArgsParse | src/args.c:190-204 | A successful `args_parse` satisfies the asserts at its end: a mode is chosen, transmit mode has a destination, and the block size is positive. |
| Args.ArgsParseSpec | src/args.c:115-204 | `args_parse` succeeds exactly when no block-size option is rejected and some mode option is given. Its record is then the "last option wins" reading of the command line. |

## Left out

- Network and resolver calls (`getaddrinfo`, `socket`, `bind`, `listen`, `connect`, `accept`) are oracles. Their addresses and the failure messages are not modelled.
- `SendContract` (a reply never exceeds the number of bytes handed over) and `RecvContract` (no payload exceeds the buffer) are assumed of the operating system, as POSIX promises.
- Transmit.SendData: at most `fuel` calls are followed. When the budget runs out the model stops with `OutOfFuel` and the session is `Unfinished`, where the C loop would keep calling `send`. Likewise `Receive.SncReceive` stops as `Unfinished` when the list of `recv` replies runs out.
- Receive.CopyFromSocket: the return value of `fwrite` is ignored by the code and output errors are not modelled.
- Transmit.CopyToSocket: a read error from `fgetc` looks like EOF in the code; the model's input is simply the bytes before EOF.
- The rendering of progress reports (`print_progress`, `print_partial_progress`, their unit formatting and throttling) is not part of this model; only the totals they are given are modelled.
- The interface list, the peer address printed by `print_sockaddr`, and the separators printed on `--print-interfaces` and `--print-peer-info`, are output only and are not modelled.
- The signal handler that sets the quit flag is not part of this model. Neither is the code that picks the transmit or receive role from the arguments.
- The `FIXED_BLOCK_SIZE` build is not modelled; the model follows the build with `--block-size`.
- Args.ParseOpt: the `sscanf("%zu")` lexing of the block size is abstract (a key carries the number it parsed to, or nothing). So a negative argument, which `%zu` wraps to a huge size instead of rejecting, is not modelled.
- Args.ArgsInit: `args_init` leaves `destination` unset; the model starts it as `None`. That `port` is never null holds by its type.
- Args.ParseKeys: argp's handling of an unknown key (`ARGP_ERR_UNKNOWN`) is modelled as skipping the key; argp's own options (`--help`, `--version`) and positional arguments are not modelled.

=== FILE: args.dfy ===
/** The command-line options: `args_init`, the `parse_opt` callback that
    argp calls once per option key, and `args_parse`, which runs argp over
    the command line and checks the result. The parse of the block-size
    argument (`sscanf` with `%zu`) is abstract: a key carries either the
    number it parsed to or nothing. */
module Args {
  import opened Wrappers

  /** Which role the program runs in; `NoMode` until an option picks one. */
  datatype Mode = NoMode | ReceiveMode | TransmitMode

  const DefaultPort: string := "1337"
  const DefaultBlockSize: nat := 0x1000

  /** The `Args` record. `destination` is only meaningful in transmit mode. */
  datatype Args = Args(
    mode: Mode,
    port: string,
    printInterfaces: bool,
    printPeerInfo: bool,
    printProgress: bool,
    blockSize: nat,
    destination: Option<string>)

  /** A key argp hands to `parse_opt`, with its argument. */
  datatype Key =
    | KeyReceive                          // -r, --receive
    | KeyTransmit(destination: string)    // -t, --transmit DESTINATION
    | KeyPort(port: string)               // -p, --port PORT
    | KeyBlockSize(parsed: Option<nat>)   // --block-size BYTES, as sscanf read it
    | KeyPrintInterfaces                  // --print-interfaces
    | KeyPrintPeerInfo                    // --print-peer-info
    | KeyPrintProgress                    // --print-progress
    | KeyEnd                              // ARGP_KEY_END, after the last option
    | KeyOther(code: int)                 // any other key argp passes

  /** Why `argp_usage` was called (it prints usage and exits). */
  datatype Usage = InvalidBlockSize | ExpectedMode

  /** What `parse_opt` does with one key: update the record and return 0,
      call `argp_usage`, or return `ARGP_ERR_UNKNOWN` leaving the record
      as it was. */
  datatype OptResult = Handled(args: Args) | UsageError(reason: Usage) | Unknown

  /** The invariant `args_parse` asserts, short of a mode having been
      chosen: a positive block size, and a destination in transmit mode. */
  predicate Consistent(a: Args)
  {
    a.blockSize > 0 && (a.mode == TransmitMode ==> a.destination.Some?)
  }

  /** `args_init`. It leaves `destination` alone; the model starts it
      absent, as in a zero-initialised record. */
  function ArgsInit(): (a: Args)
    ensures Consistent(a) && a.mode == NoMode
    ensures a.port == "1337" && a.blockSize == 0x1000
    ensures !a.printInterfaces && !a.printPeerInfo && !a.printProgress
  {
    Args(NoMode, DefaultPort, false, false, false, DefaultBlockSize, None)
  }

  /** True of a block-size key whose argument is rejected: it did not
      parse as one unsigned number, or the number is 0. */
  predicate BadBlockSize(k: Key)
  {
    k.KeyBlockSize? && (k.parsed.None? || k.parsed.value == 0)
  }

  /** `parse_opt`. */
  function ParseOpt(k: Key, a: Args): (r: OptResult)
    ensures r.Unknown? <==> k.KeyOther?
    ensures r.UsageError? <==> BadBlockSize(k) || (k == KeyEnd && a.mode == NoMode)
    ensures r.Handled? && Consistent(a) ==> Consistent(r.args)
    ensures r.Handled? && r.args.mode == NoMode ==> a.mode == NoMode
  {
    match k
    case KeyReceive => Handled(a.(mode := ReceiveMode))
    case KeyTransmit(d) => Handled(a.(mode := TransmitMode, destination := Some(d)))
    case KeyPort(p) => Handled(a.(port := p))
    case KeyBlockSize(parsed) =>
      if parsed.None? || parsed.value == 0 then UsageError(InvalidBlockSize)
      else Handled(a.(blockSize := parsed.value))
    case KeyPrintInterfaces => Handled(a.(printInterfaces := true))
    case KeyPrintPeerInfo => Handled(a.(printPeerInfo := true))
    case KeyPrintProgress => Handled(a.(printProgress := true))
    case KeyEnd => if a.mode == NoMode then UsageError(ExpectedMode) else Handled(a)
    case KeyOther(_) => Unknown
  }

  /** Each option touches only its own fields, and repeating a print
      option changes nothing. */
  lemma ParseOptFrame(k: Key, a: Args)
    ensures k == KeyReceive ==>
              ParseOpt(k, a).Handled? && ParseOpt(k, a).args.mode == ReceiveMode
              && ParseOpt(k, a).args.(mode := a.mode) == a
    ensures k.KeyTransmit? ==>
              ParseOpt(k, a).Handled? && ParseOpt(k, a).args.mode == TransmitMode
              && ParseOpt(k, a).args.destination == Some(k.destination)
              && ParseOpt(k, a).args.(mode := a.mode, destination := a.destination) == a
    ensures k.KeyPort? ==>
              ParseOpt(k, a).Handled? && ParseOpt(k, a).args.port == k.port
              && ParseOpt(k, a).args.(port := a.port) == a
    ensures k.KeyBlockSize? && !BadBlockSize(k) ==>
              ParseOpt(k, a).Handled? && ParseOpt(k, a).args.blockSize == k.parsed.value
              && ParseOpt(k, a).args.(blockSize := a.blockSize) == a
    ensures k == KeyPrintInterfaces ==>
              ParseOpt(k, a).Handled? && ParseOpt(k, a).args.printInterfaces
              && ParseOpt(k, a).args.(printInterfaces := a.printInterfaces) == a
              && ParseOpt(k, ParseOpt(k, a).args) == ParseOpt(k, a)
    ensures k == KeyPrintPeerInfo ==>
              ParseOpt(k, a).Handled? && ParseOpt(k, a).args.printPeerInfo
              && ParseOpt(k, a).args.(printPeerInfo := a.printPeerInfo) == a
              && ParseOpt(k, ParseOpt(k, a).args) == ParseOpt(k, a)
    ensures k == KeyPrintProgress ==>
              ParseOpt(k, a).Handled? && ParseOpt(k, a).args.printProgress
              && ParseOpt(k, a).args.(printProgress := a.printProgress) == a
              && ParseOpt(k, ParseOpt(k, a).args) == ParseOpt(k, a)
    ensures k == KeyEnd && a.mode != NoMode ==> ParseOpt(k, a) == Handled(a)
  {
  }

  /** argp's loop: `parse_opt` on each key in turn. A usage error ends the
      process; an unknown key leaves the record as it was. */
  function ParseKeys(a: Args, keys: seq<Key>): (r: Result<Args, Usage>)
    ensures r.Success? && Consistent(a) ==> Consistent(r.value)
    ensures r.Success? && a.mode != NoMode ==> r.value.mode != NoMode
    ensures r.Success? && |keys| > 0 && keys[|keys| - 1] == KeyEnd ==> r.value.mode != NoMode
    decreases |keys|
  {
    if |keys| == 0 then Success(a)
    else
      match ParseOpt(keys[0], a)
      case Handled(b) => ParseKeys(b, keys[1..])
      case Unknown => ParseKeys(a, keys[1..])
      case UsageError(u) => Failure(u)
  }

  /** `args_parse`: argp passes the option keys in command-line order and
      then `ARGP_KEY_END`. On success the record satisfies the asserts at
      the end of `args_parse`. */
  function ArgsParse(options: seq<Key>): (r: Result<Args, Usage>)
    ensures r.Success? ==>
              && r.value.mode != NoMode
              && (r.value.mode == TransmitMode ==> r.value.destination.Some?)
              && r.value.blockSize > 0
  {
    ParseKeys(ArgsInit(), options + [KeyEnd])
  }

  // A reference reading of the option list, independent of the fold: the
  // last option of a kind wins, a print flag is set when its option occurs.

  /** The value given by the last key `pick` recognises, or `d` if none. */
  function Last<T>(keys: seq<Key>, pick: Key -> Option<T>, d: T): T
  {
    if |keys| == 0 then d
    else
      match pick(keys[|keys| - 1])
      case Some(v) => v
      case None => Last(keys[..|keys| - 1], pick, d)
  }

  function ModeOf(k: Key): Option<Mode>
  {
    match k
    case KeyReceive => Some(ReceiveMode)
    case KeyTransmit(_) => Some(TransmitMode)
    case _ => None
  }

  function DestinationOf(k: Key): Option<Option<string>>
  {
    if k.KeyTransmit? then Some(Some(k.destination)) else None
  }

  function PortOf(k: Key): Option<string>
  {
    if k.KeyPort? then Some(k.port) else None
  }

  function BlockSizeOf(k: Key): Option<nat>
  {
    if k.KeyBlockSize? && !BadBlockSize(k) then Some(k.parsed.value) else None
  }

  /** The record that results from `a` once the options in `keys` are
      applied, read as "last one wins". */
  function Overlay(a: Args, keys: seq<Key>): Args
  {
    Args(
      Last(keys, ModeOf, a.mode),
      Last(keys, PortOf, a.port),
      a.printInterfaces || KeyPrintInterfaces in keys,
      a.printPeerInfo || KeyPrintPeerInfo in keys,
      a.printProgress || KeyPrintProgress in keys,
      Last(keys, BlockSizeOf, a.blockSize),
      Last(keys, DestinationOf, a.destination))
  }

  /** Reading a key off the front of the list is the same as starting the
      backward scan from that key's value. */
  lemma {:induction false} LastCons<T>(k: Key, rest: seq<Key>, pick: Key -> Option<T>, d: T)
    ensures Last([k] + rest, pick, d) == Last(rest, pick, if pick(k).Some? then pick(k).value else d)
    decreases |rest|
  {
    if |rest| == 0 {
      assert ([k] + rest)[..0] == [];
    } else {
      var init := rest[..|rest| - 1];
      assert ([k] + rest)[..|rest|] == [k] + init;
      LastCons(k, init, pick, d);
    }
  }

  /** Applying one more key to the front of a list is the same as first
      handling that key and then overlaying the rest. */
  lemma OverlayCons(a: Args, k: Key, rest: seq<Key>)
    requires k != KeyEnd && !k.KeyOther? && !BadBlockSize(k)
    ensures ParseOpt(k, a).Handled?
    ensures Overlay(ParseOpt(k, a).args, rest) == Overlay(a, [k] + rest)
  {
    LastCons(k, rest, ModeOf, a.mode);
    LastCons(k, rest, PortOf, a.port);
    LastCons(k, rest, BlockSizeOf, a.blockSize);
    LastCons(k, rest, DestinationOf, a.destination);
  }

  /** With no rejected block size, the fold of `parse_opt` over the
      options gives exactly the "last one wins" record. */
  lemma {:induction false} ParseKeysIsLastWins(a: Args, keys: seq<Key>)
    requires forall i :: 0 <= i < |keys| ==> keys[i] != KeyEnd && !BadBlockSize(keys[i])
    ensures ParseKeys(a, keys) == Success(Overlay(a, keys))
    decreases |keys|
  {
    if |keys| == 0 {
      assert Overlay(a, keys) == a;
    } else {
      var k, rest := keys[0], keys[1..];
      assert keys == [k] + rest;
      if k.KeyOther? {
        ParseKeysIsLastWins(a, rest);
        LastCons(k, rest, ModeOf, a.mode);
        LastCons(k, rest, PortOf, a.port);
        LastCons(k, rest, BlockSizeOf, a.blockSize);
        LastCons(k, rest, DestinationOf, a.destination);
      } else {
        OverlayCons(a, k, rest);
        ParseKeysIsLastWins(ParseOpt(k, a).args, rest);
      }
    }
  }

  /** A rejected block size anywhere in the options ends the parse with a
      usage error. */
  lemma {:induction false} ParseKeysRejectsBadBlockSize(a: Args, keys: seq<Key>, j: nat)
    requires j < |keys| && BadBlockSize(keys[j])
    requires forall i :: 0 <= i < |keys| ==> keys[i] != KeyEnd
    ensures ParseKeys(a, keys) == Failure(InvalidBlockSize)
    decreases |keys|
  {
    if j > 0 && !BadBlockSize(keys[0]) {
      var next := if keys[0].KeyOther? then a else ParseOpt(keys[0], a).args;
      ParseKeysRejectsBadBlockSize(next, keys[1..], j - 1);
    }
  }

  /** The fold over a concatenation runs the second part from where the
      first part ended, unless the first part already failed. */
  lemma {:induction false} ParseKeysAppend(a: Args, keys: seq<Key>, tail: seq<Key>)
    ensures ParseKeys(a, keys + tail)
            == (match ParseKeys(a, keys)
                case Success(b) => ParseKeys(b, tail)
                case Failure(u) => Failure(u))
    decreases |keys|
  {
    if |keys| > 0 {
      assert (keys + tail)[0] == keys[0];
      assert (keys + tail)[1..] == keys[1..] + tail;
      match ParseOpt(keys[0], a)
      case Handled(b) => ParseKeysAppend(b, keys[1..], tail);
      case Unknown => ParseKeysAppend(a, keys[1..], tail);
      case UsageError(_) =>
    } else {
      assert keys + tail == tail;
    }
  }

  /** The final `ARGP_KEY_END` fails exactly when no mode was chosen. */
  lemma ParseKeysEnd(b: Args)
    ensures ParseKeys(b, [KeyEnd]) == if b.mode == NoMode then Failure(ExpectedMode) else Success(b)
  {
    assert [KeyEnd][1..] == [];
  }

  /** `args_parse` succeeds exactly when every block-size option is a
      positive number and some mode option is given; the record it then
      yields holds the last mode, port, block size and destination given
      (or the defaults) and each print flag that was given at least once. */
  lemma ArgsParseSpec(options: seq<Key>)
    requires KeyEnd !in options
    ensures ArgsParse(options).Success?
            <==> (forall k | k in options :: !BadBlockSize(k))
                 && Last(options, ModeOf, NoMode) != NoMode
    ensures ArgsParse(options).Success? ==> ArgsParse(options).value == Overlay(ArgsInit(), options)
  {
    ParseKeysAppend(ArgsInit(), options, [KeyEnd]);
    if j :| 0 <= j < |options| && BadBlockSize(options[j]) {
      ParseKeysRejectsBadBlockSize(ArgsInit(), options, j);
      assert ArgsParse(options) == Failure(InvalidBlockSize);
    } else {
      ParseKeysIsLastWins(ArgsInit(), options);
      var b := Overlay(ArgsInit(), options);
      assert b.mode == Last(options, ModeOf, NoMode);
      ParseKeysEnd(b);
      assert ArgsParse(options) == ParseKeys(b, [KeyEnd]);
    }
  }
}

=== FILE: bytes.dfy ===
/** Byte strings and the concatenation of chunks of them. */
module Bytes {

  /** One octet, as stored in the C `char` buffers. */
  newtype byte = x: int | 0 <= x < 0x100

  /** Concatenation of chunks, in order. Defined by peeling the last chunk
      so that appending one chunk to a list unfolds in one step. */
  function Flatten<T>(chunks: seq<seq<T>>): seq<T>
  {
    if |chunks| == 0 then [] else Flatten(chunks[..|chunks| - 1]) + chunks[|chunks| - 1]
  }

  /** Appending one chunk appends its bytes. */
  lemma FlattenSnoc<T>(chunks: seq<seq<T>>, c: seq<T>)
    ensures Flatten(chunks + [c]) == Flatten(chunks) + c
  {
    assert (chunks + [c])[..|chunks|] == chunks;
  }

  /** A list of chunks that all have exactly `size` elements flattens to
      `|chunks| * size` elements. */
  lemma {:induction false} FlattenUniformLength<T>(chunks: seq<seq<T>>, size: nat)
    requires forall i :: 0 <= i < |chunks| ==> |chunks[i]| == size
    ensures |Flatten(chunks)| == |chunks| * size
    decreases |chunks|
  {
    if |chunks| > 0 {
      FlattenUniformLength(chunks[..|chunks| - 1], size);
    }
  }
}

=== FILE: receive.dfy ===
/** The receiver, `snc_receive`: listen on a port, accept one connection,
    then copy whatever `recv` returns to the output stream until the peer
    closes, a `recv` fails, or the quit flag is seen. */
module Receive {
  import opened Wrappers
  import opened Bytes
  import opened Session

  /** What one `recv` call returns: the bytes it put in the buffer (none
      when the peer has closed the connection), or an error. */
  datatype RecvReply = Data(bytes: seq<byte>) | RecvError

  /** `recv` on a buffer of `bufSz` bytes never returns more than that. */
  predicate RecvContract(replies: seq<RecvReply>, bufSz: nat)
  {
    forall i :: 0 <= i < |replies| ==> replies[i].Data? ==> |replies[i].bytes| <= bufSz
  }

  /** True of a reply that keeps the copy loop going. */
  predicate Positive(reply: RecvReply)
  {
    reply.Data? && |reply.bytes| > 0
  }

  /** The bytes carried by a list of replies, in order; errors and
      zero-length replies carry none. */
  function ReceivedBytes(replies: seq<RecvReply>): seq<byte>
  {
    if |replies| == 0 then []
    else
      var last := replies[|replies| - 1];
      ReceivedBytes(replies[..|replies| - 1]) + (if last.Data? then last.bytes else [])
  }

  /** Why the copy loop stopped. `OutOfReplies` means the oracle ran out
      while the loop was still running. */
  datatype RecvEnd = PeerClosed | QuitSeen | RecvFailed | OutOfReplies

  /** What the copy loop did: `calls` `recv` calls were made (answered by
      the first `calls` replies), `written` holds the `fwrite` calls in
      order, `reports` the progress calls. */
  datatype ReceiveLoop = ReceiveLoop(
    calls: nat,
    written: seq<seq<byte>>,
    reports: seq<Report>,
    end: RecvEnd)

  /** True of the ends after which `snc_receive` prints the final
      progress report: every end but a failed `recv`. */
  predicate EndsCleanly(end: RecvEnd)
  {
    end == PeerClosed || end == QuitSeen
  }

  /** `r` is the copy loop run over the oracles: `recv` was called
      `r.calls` times, answered by the first `r.calls` replies; the quit
      flag was found clear before each call; the loop went on only past a
      reply that carried data, and stopped for the first reply that did
      not (0 is a peer close, a negative result a failure), for the quit
      flag when it was set at the next check, or when the replies ran
      out; each `fwrite` wrote one payload, in order. */
  predicate Received(r: ReceiveLoop, replies: seq<RecvReply>, quit: seq<bool>)
  {
    && r.calls <= |replies|
    // the flag was checked and found clear before every recv
    && (forall k :: 0 <= k < r.calls ==> !QuitAt(quit, k))
    // the loop only continues past a reply that carried data
    && (forall k :: 0 <= k < r.calls - 1 ==> Positive(replies[k]))
    && (r.end == PeerClosed <==> 0 < r.calls && replies[r.calls - 1] == Data([]))
    && (r.end == RecvFailed <==> 0 < r.calls && replies[r.calls - 1] == RecvError)
    // the loop stops for the quit flag exactly when the flag is set at the
    // check after the last reply that carried data
    && (r.end == QuitSeen <==>
          QuitAt(quit, r.calls) && (r.calls == 0 || Positive(replies[r.calls - 1])))
    && (r.end == OutOfReplies ==> r.calls == |replies|)
    // each fwrite writes exactly one recv payload, in order
    && |r.written| == (if r.end == PeerClosed || r.end == RecvFailed then r.calls - 1 else r.calls)
    && (forall k :: 0 <= k < |r.written| ==> replies[k] == Data(r.written[k]))
    && Flatten(r.written) == ReceivedBytes(replies[..r.calls])
  }

  /** The replies and the quit flag determine the copy loop: two runs over
      the same oracles made the same calls, stopped for the same reason
      and wrote the same payloads. */
  lemma ReceivedUnique(r1: ReceiveLoop, r2: ReceiveLoop, replies: seq<RecvReply>, quit: seq<bool>)
    requires Received(r1, replies, quit) && Received(r2, replies, quit)
    ensures r1.calls == r2.calls && r1.end == r2.end && r1.written == r2.written
  {
  }

  /** The copy loop of `snc_receive` and its final progress report.
      `replies[k]` answers the k-th `recv`, each asking for `bufSz` bytes;
      `quit[k]` is the quit flag at the check before it. */
  method CopyFromSocket(replies: seq<RecvReply>, quit: seq<bool>, bufSz: nat, progress: bool)
    returns (r: ReceiveLoop)
    requires bufSz > 0
    requires RecvContract(replies, bufSz)
    ensures Received(r, replies, quit)
    // progress: a running total after each write, and the final total unless recv failed
    ensures !progress ==> r.reports == []
    ensures progress ==> r.reports == PartialReports(r.written)
                                      + (if EndsCleanly(r.end) then [Final(|Flatten(r.written)|)] else [])
  {
    var total;
    r, total := RecvLoop(replies, quit, bufSz, progress);
    if progress && EndsCleanly(r.end) {
      r := r.(reports := r.reports + [Final(total)]);
    }
  }

  /** The `while (!g_signaled_quit)` loop of `snc_receive`; `total` is the
      running progress counter when it ends. */
  method RecvLoop(replies: seq<RecvReply>, quit: seq<bool>, bufSz: nat, progress: bool)
    returns (r: ReceiveLoop, total: nat)
    requires bufSz > 0
    requires RecvContract(replies, bufSz)
    ensures Received(r, replies, quit)
    ensures total == (if progress then |Flatten(r.written)| else 0)
    ensures r.reports == (if progress then PartialReports(r.written) else [])
  {
    var calls: nat := 0;
    var written: seq<seq<byte>> := [];
    var reports: seq<Report> := [];
    total := 0;
    var end: RecvEnd;
    while true
      invariant calls <= |replies| && |written| == calls
      invariant forall k :: 0 <= k < calls ==>
                  !QuitAt(quit, k) && Positive(replies[k]) && replies[k] == Data(written[k])
      invariant Flatten(written) == ReceivedBytes(replies[..calls])
      invariant total == (if progress then |Flatten(written)| else 0)
      invariant reports == (if progress then PartialReports(written) else [])
      decreases |replies| - calls
    {
      if QuitAt(quit, calls) || calls == |replies| {
        end := if QuitAt(quit, calls) then QuitSeen else OutOfReplies;
        StopAtCheck(replies, quit, calls, written, reports, end);
        break;
      }
      var reply := replies[calls];
      calls := calls + 1;
      if !Positive(reply) {
        // a negative recv result is fatal; zero means the peer closed
        end := if reply.RecvError? then RecvFailed else PeerClosed;
        StopAtReply(replies, quit, calls, written, reports, end);
        break;
      }
      ReceivedBytesSnoc(replies, calls - 1);
      PartialReportsSnoc(written, reply.bytes);
      FlattenSnoc(written, reply.bytes);
      if progress {
        total := total + |reply.bytes|;
        reports := reports + [Partial(total)];
      }
      written := written + [reply.bytes];
    }
    r := ReceiveLoop(calls, written, reports, end);
  }

  /** The loop stops at the check before a call: for the quit flag, or
      because the replies ran out. */
  lemma StopAtCheck(replies: seq<RecvReply>, quit: seq<bool>, calls: nat,
                    written: seq<seq<byte>>, reports: seq<Report>, end: RecvEnd)
    requires calls <= |replies| && |written| == calls
    requires forall k :: 0 <= k < calls ==>
               !QuitAt(quit, k) && Positive(replies[k]) && replies[k] == Data(written[k])
    requires Flatten(written) == ReceivedBytes(replies[..calls])
    requires QuitAt(quit, calls) || calls == |replies|
    requires end == (if QuitAt(quit, calls) then QuitSeen else OutOfReplies)
    ensures Received(ReceiveLoop(calls, written, reports, end), replies, quit)
  {
  }

  /** The loop stops at a reply that carried no data: the `calls`-th. */
  lemma StopAtReply(replies: seq<RecvReply>, quit: seq<bool>, calls: nat,
                    written: seq<seq<byte>>, reports: seq<Report>, end: RecvEnd)
    requires 0 < calls <= |replies| && |written| == calls - 1
    requires forall k :: 0 <= k < calls - 1 ==>
               !QuitAt(quit, k) && Positive(replies[k]) && replies[k] == Data(written[k])
    requires !QuitAt(quit, calls - 1) && !Positive(replies[calls - 1])
    requires Flatten(written) == ReceivedBytes(replies[..calls - 1])
    requires end == (if replies[calls - 1].RecvError? then RecvFailed else PeerClosed)
    ensures Received(ReceiveLoop(calls, written, reports, end), replies, quit)
  {
    ReceivedBytesSnoc(replies, calls - 1);
    Stopping(replies[calls - 1]);
    forall k | 0 <= k < calls
      ensures !QuitAt(quit, k)
    {
      if k < calls - 1 {
        assert !QuitAt(quit, k);
      }
    }
  }

  /** A reply that stops the loop is an error or the empty payload. */
  lemma Stopping(reply: RecvReply)
    requires !Positive(reply)
    ensures reply == RecvError || reply == Data([])
  {
  }

  /** One more reply adds its payload to the bytes received. */
  lemma ReceivedBytesSnoc(replies: seq<RecvReply>, n: nat)
    requires n < |replies|
    ensures ReceivedBytes(replies[..n + 1])
            == ReceivedBytes(replies[..n]) + (if replies[n].Data? then replies[n].bytes else [])
  {
    assert replies[..n + 1][..n] == replies[..n];
  }

  /** The setup calls of `snc_receive`, in order: one `accept`, with the
      listening backlog fixed at `ListenBacklog`. */
  const ReceiveSteps: seq<Step> :=
    [Resolve, CreateSocket, Bind, Listen(ListenBacklog), Accept, Allocate]

  /** One run of `snc_receive`: setup, the copy loop when setup
      succeeded, what reached the output stream, the cleanup block, and
      how the process goes on. */
  datatype ReceiveSession = ReceiveSession(
    setup: SetupRun,
    loop: Option<ReceiveLoop>,
    output: seq<byte>,
    released: seq<Resource>,
    outcome: Outcome)

  /** `snc_receive`. `setupResults[i]` is the result of the i-th setup
      call if it is reached; the other parameters are those of
      `CopyFromSocket`. */
  method SncReceive(setupResults: seq<bool>, replies: seq<RecvReply>, quit: seq<bool>,
                    bufSz: nat, progress: bool)
    returns (s: ReceiveSession)
    requires |setupResults| == |ReceiveSteps|
    requires bufSz > 0
    requires RecvContract(replies, bufSz)
    ensures |s.setup.performed| <= |ReceiveSteps|
    ensures s.setup.performed == ReceiveSteps[..|s.setup.performed|]
    ensures s.loop.Some? <==> forall i :: 0 <= i < |setupResults| ==> setupResults[i]
    ensures s.loop.Some? ==> s.setup.performed == ReceiveSteps
    ensures s.loop.None? ==>
              && 0 < |s.setup.performed|
              && !setupResults[|s.setup.performed| - 1]
              && s.outcome == ExitFailure
              && s.output == []
    ensures s.loop.Some? ==> Received(s.loop.value, replies, quit)
    ensures s.loop.Some? ==> s.output == ReceivedBytes(replies[..s.loop.value.calls])
    // progress: a running total after each write, and the final total unless recv failed
    ensures s.loop.Some? && !progress ==> s.loop.value.reports == []
    ensures s.loop.Some? && progress ==>
              s.loop.value.reports == PartialReports(s.loop.value.written)
                                      + (if EndsCleanly(s.loop.value.end) then [Final(|Flatten(s.loop.value.written)|)] else [])
    ensures s.outcome == Unfinished <==> s.loop.Some? && s.loop.value.end == OutOfReplies
    ensures s.outcome == ExitFailure <==> s.loop.None? || s.loop.value.end == RecvFailed
    ensures s.outcome == Unfinished ==> s.released == []
    ensures s.outcome != Unfinished ==>
              forall res :: multiset(s.released)[res]
                            == (if res in Acquired(s.setup.performed, setupResults) then 1 else 0)
  {
    var setup := RunSetup(ReceiveSteps, setupResults);
    assert setup.ok <==> forall i :: 0 <= i < |setupResults| ==> setupResults[i];
    var held := Acquired(setup.performed, setupResults);
    CleanupReleasesHeldOnce(held);
    if !setup.ok {
      return ReceiveSession(setup, None, [], Cleanup(held), ExitFailure);
    }
    var loop := CopyFromSocket(replies, quit, bufSz, progress);
    var output := Flatten(loop.written);
    if loop.end == OutOfReplies {
      return ReceiveSession(setup, Some(loop), output, [], Unfinished);
    }
    var outcome := if loop.end == RecvFailed then ExitFailure else Returned;
    s := ReceiveSession(setup, Some(loop), output, Cleanup(held), outcome);
  }

  /** A session calls `accept` at most once, right after `listen`, and
      exactly once whenever setup completes and data can flow. */
  lemma SingleAccept(setupResults: seq<bool>)
    requires |setupResults| == |ReceiveSteps|
    ensures var run := RunSetup(ReceiveSteps, setupResults);
            && (forall i :: 0 <= i < |run.performed| && run.performed[i] == Accept ==>
                  i == 4 && run.performed[i - 1] == Listen(ListenBacklog))
            && (run.ok ==> run.performed[4] == Accept)
  {
    var run := RunSetup(ReceiveSteps, setupResults);
    forall i | 0 <= i < |run.performed| && run.performed[i] == Accept
      ensures i == 4 && run.performed[i - 1] == Listen(ListenBacklog)
    {
      assert run.performed[i] == ReceiveSteps[i];
    }
  }
}

=== FILE: session.dfy ===
/** What the receive and transmit sessions share: the setup calls made
    before any data moves, the resources those calls acquire, the cleanup
    block that releases them, the quit flag and the progress reports. */
module Session {
  import opened Wrappers
  import opened Bytes

  /** The backlog passed to `listen` by the receiver. */
  const ListenBacklog: nat := 10

  /** One setup call. Each may fail; a failure is fatal for the session. */
  datatype Step =
    | Resolve          // getaddrinfo; only the first result is ever used
    | CreateSocket     // socket
    | Bind             // bind
    | Listen(backlog: nat)
    | Connect          // connect
    | Accept           // accept
    | Allocate         // malloc of the transfer buffer

  /** A resource that the cleanup block must give back. */
  datatype Resource =
    | AddrInfo    // freed with freeaddrinfo
    | Socket      // the descriptor returned by socket, closed with close
    | Connection  // the descriptor returned by accept, closed with close
    | Buffer      // the transfer buffer, freed with free

  /** The resource a successful step leaves behind, if any. */
  function Acquires(s: Step): Option<Resource>
  {
    match s
    case Resolve => Some(AddrInfo)
    case CreateSocket => Some(Socket)
    case Accept => Some(Connection)
    case Allocate => Some(Buffer)
    case _ => None
  }

  /** The setup calls actually issued, and whether all of them succeeded. */
  datatype SetupRun = SetupRun(performed: seq<Step>, ok: bool)

  /** Issues `steps` in order; `results[i]` is what the i-th call returns
      when it is reached. The first failing call ends the setup: it is
      the last call issued. */
  function RunSetup(steps: seq<Step>, results: seq<bool>): (r: SetupRun)
    requires |results| == |steps|
    ensures |r.performed| <= |steps| && r.performed == steps[..|r.performed|]
    ensures r.ok <==> forall i :: 0 <= i < |steps| ==> results[i]
    ensures r.ok ==> r.performed == steps
    ensures !r.ok ==>
              && 0 < |r.performed|
              && !results[|r.performed| - 1]
              && forall i :: 0 <= i < |r.performed| - 1 ==> results[i]
  {
    if |steps| == 0 then SetupRun([], true)
    else if !results[0] then SetupRun([steps[0]], false)
    else
      var rest := RunSetup(steps[1..], results[1..]);
      SetupRun([steps[0]] + rest.performed, rest.ok)
  }

  /** The resources held after the issued setup calls: those of the
      calls that succeeded. */
  function Acquired(performed: seq<Step>, results: seq<bool>): set<Resource>
    requires |performed| <= |results|
  {
    set i | 0 <= i < |performed| && results[i] && Acquires(performed[i]).Some?
      :: Acquires(performed[i]).value
  }

  /** The cleanup block: the release calls issued, in order, given the
      resources held (buffer, then connection, then socket, then the
      address list). Each held resource is released exactly once and
      nothing else is released. */
  function Cleanup(held: set<Resource>): (released: seq<Resource>)
  {
    Release(Buffer, held) + Release(Connection, held) + Release(Socket, held) + Release(AddrInfo, held)
  }

  /** One guarded release in the cleanup block: `if (held) release(r)`. */
  function Release(r: Resource, held: set<Resource>): seq<Resource>
  {
    if r in held then [r] else []
  }

  /** The cleanup block releases each held resource exactly once and
      releases nothing that is not held. */
  lemma CleanupReleasesHeldOnce(held: set<Resource>)
    ensures forall r :: multiset(Cleanup(held))[r] == (if r in held then 1 else 0)
  {
    var b, c, s, a := Release(Buffer, held), Release(Connection, held), Release(Socket, held), Release(AddrInfo, held);
    assert Cleanup(held) == b + c + s + a;
    forall r
      ensures multiset(Cleanup(held))[r] == (if r in held then 1 else 0)
    {
      ReleaseCount(r, Buffer, held);
      ReleaseCount(r, Connection, held);
      ReleaseCount(r, Socket, held);
      ReleaseCount(r, AddrInfo, held);
      assert multiset(Cleanup(held))[r]
          == multiset(b)[r] + multiset(c)[r] + multiset(s)[r] + multiset(a)[r];
    }
  }

  /** A guarded release gives back `x` once if it is held, and nothing else. */
  lemma ReleaseCount(r: Resource, x: Resource, held: set<Resource>)
    ensures multiset(Release(x, held))[r] == (if r == x && x in held then 1 else 0)
  {
  }

  /** The value of the quit flag at its k-th check. The flag is set by a
      signal handler outside the model; checks past the end of `quit`
      read false. */
  predicate QuitAt(quit: seq<bool>, k: nat)
  {
    k < |quit| && quit[k]
  }

  /** A call to the progress printer: `print_partial_progress` or the
      final `print_progress`, with the running total it was given. */
  datatype Report = Partial(total: nat) | Final(total: nat)

  /** The `print_partial_progress` calls made after each chunk of a
      sequence of chunks: the i-th one is given the number of bytes in the
      first i + 1 chunks. */
  function PartialReports<T>(chunks: seq<seq<T>>): (reports: seq<Report>)
    ensures |reports| == |chunks|
  {
    if |chunks| == 0 then []
    else PartialReports(chunks[..|chunks| - 1]) + [Partial(|Flatten(chunks)|)]
  }

  /** Appending one chunk appends one report carrying the new total. */
  lemma PartialReportsSnoc<T>(chunks: seq<seq<T>>, c: seq<T>)
    ensures PartialReports(chunks + [c])
            == PartialReports(chunks) + [Partial(|Flatten(chunks)| + |c|)]
  {
    assert (chunks + [c])[..|chunks|] == chunks;
    FlattenSnoc(chunks, c);
  }

  /** When every chunk holds `size` elements, the i-th report is
      `(i + 1) * size`: the running total counts whole blocks. */
  lemma {:induction false} PartialReportsOfBlocks<T>(chunks: seq<seq<T>>, size: nat)
    requires forall i :: 0 <= i < |chunks| ==> |chunks[i]| == size
    ensures forall i :: 0 <= i < |chunks| ==> PartialReports(chunks)[i] == Partial((i + 1) * size)
    decreases |chunks|
  {
    if |chunks| > 0 {
      var init := chunks[..|chunks| - 1];
      PartialReportsOfBlocks(init, size);
      FlattenUniformLength(chunks, size);
      assert PartialReports(chunks) == PartialReports(init) + [Partial(|chunks| * size)];
    }
  }

  /** How a session ends. `Unfinished` means the oracles ran out while the
      session was still inside its copy loop, so no cleanup has run yet. */
  datatype Outcome = Returned | ExitFailure | Unfinished
}

=== FILE: transmit.dfy ===
/** The transmitter: `send_data`, the partial-send retry loop, and
    `snc_transmit`, which reads the input one byte at a time into a block
    of `bufSz` bytes, sends each full block, and sends what is left over
    once the input ends or the quit flag is seen. */
module Transmit {
  import opened Wrappers
  import opened Bytes
  import opened Session

  /** The socket's `send`, as an oracle: `send(k, b)` is what the k-th
      call of the session returns when it is handed the bytes `b`; a
      negative value is an error. `send` never reports more bytes than it
      was handed. */
  ghost predicate SendContract(send: (nat, seq<byte>) -> int)
  {
    forall k: nat, b: seq<byte> :: send(k, b) <= |b|
  }

  /** One `send` call of a `send_data` run: it passes the `request` bytes
      that start at `offset` (`&data[total_sent]`, `data_sz`) and gets
      `reply`. */
  datatype SendCall = SendCall(offset: nat, request: nat, reply: int)

  /** How `send_data` ends: every byte accepted (it returns true), a
      negative reply (it returns false), or the oracle budget `fuel` spent
      while bytes were still unsent (the C loop would keep calling). */
  datatype SendStatus = Sent | SendFailed | OutOfFuel

  /** The calls of one `send_data` run over `n` bytes form a retry chain:
      every call passes the unsent suffix of the `n` bytes and gets back
      no more than it passed; the first call starts at offset 0, and each
      later call follows a call that was answered without error and
      starts where that call's accepted bytes end. */
  ghost predicate RetryChain(calls: seq<SendCall>, n: nat)
  {
    && (|calls| > 0 ==> calls[0].offset == 0)
    && (forall i :: 0 <= i < |calls| ==>
          0 < calls[i].request && calls[i].offset + calls[i].request == n
          && calls[i].reply <= calls[i].request)
    && (forall i :: 0 <= i < |calls| - 1 ==>
          0 <= calls[i].reply && calls[i + 1].offset == calls[i].offset + calls[i].reply)
  }

  /** The bytes a call hands to `send`. */
  function Given(data: seq<byte>, c: SendCall): seq<byte>
  {
    if c.offset + c.request <= |data| then data[c.offset..c.offset + c.request] else []
  }

  /** Each call got the oracle's reply for the bytes it handed over; the
      calls are the session's calls number `first`, `first + 1`, .... */
  ghost predicate Answered(send: (nat, seq<byte>) -> int, data: seq<byte>, calls: seq<SendCall>, first: nat)
    decreases |calls|
  {
    |calls| > 0 ==>
      var n := |calls| - 1;
      && Answered(send, data, calls[..n], first)
      && calls[n].reply == send(first + n, Given(data, calls[n]))
  }

  /** `send_data`: keeps sending the unsent suffix of `data` until all of
      it is accepted or a call fails. `first` is the index of the first
      call in the session's sequence of `send` calls; at most `fuel` calls
      are followed. */
  method SendData(data: seq<byte>, send: (nat, seq<byte>) -> int, first: nat, fuel: nat)
    returns (status: SendStatus, calls: seq<SendCall>)
    requires SendContract(send)
    ensures |calls| <= fuel
    ensures RetryChain(calls, |data|)
    ensures Answered(send, data, calls, first)
    ensures status == Sent <==>
              if |calls| == 0 then |data| == 0
              else calls[|calls| - 1].reply == calls[|calls| - 1].request
    ensures status == SendFailed <==> |calls| > 0 && calls[|calls| - 1].reply < 0
    ensures status != SendFailed ==> forall i :: 0 <= i < |calls| ==> calls[i].reply >= 0
    ensures status == OutOfFuel ==> |calls| == fuel
    ensures |data| == 0 ==> status == Sent && calls == []
  {
    var totalSent: nat := 0;  // total_sent; data_sz is |data| - totalSent
    var failed := false;
    calls := [];
    while totalSent < |data| && !failed && |calls| < fuel
      invariant |calls| <= fuel
      invariant Sending(send, data, first, calls, totalSent, failed)
      decreases fuel - |calls|
    {
      var c := SendCall(totalSent, |data| - totalSent, send(first + |calls|, data[totalSent..]));
      SendStep(send, data, first, calls, totalSent, c);
      calls := calls + [c];
      failed := c.reply < 0;
      if !failed {
        totalSent := totalSent + c.reply;
      }
    }
    status := if failed then SendFailed else if totalSent == |data| then Sent else OutOfFuel;
    SendDone(send, data, first, fuel, calls, totalSent, failed, status);
  }

  /** How `send_data` ends, from its state when the loop stops. */
  lemma SendDone(send: (nat, seq<byte>) -> int, data: seq<byte>, first: nat, fuel: nat,
                 calls: seq<SendCall>, totalSent: nat, failed: bool, status: SendStatus)
    requires Sending(send, data, first, calls, totalSent, failed) && |calls| <= fuel
    requires failed || totalSent == |data| || |calls| == fuel
    requires status == if failed then SendFailed else if totalSent == |data| then Sent else OutOfFuel
    ensures status == Sent <==>
              if |calls| == 0 then |data| == 0
              else calls[|calls| - 1].reply == calls[|calls| - 1].request
    ensures status == SendFailed <==> |calls| > 0 && calls[|calls| - 1].reply < 0
    ensures status != SendFailed ==> forall i :: 0 <= i < |calls| ==> calls[i].reply >= 0
    ensures status == OutOfFuel ==> |calls| == fuel
    ensures |data| == 0 ==> status == Sent && calls == []
  {
    if |calls| > 0 {
      var last := calls[|calls| - 1];
      assert last.offset + last.request == |data|;
    }
  }

  /** The state of `send_data` between calls: the calls so far form an
      answered retry chain, `failed` records whether the last reply was
      negative, and `totalSent` is where the last accepted piece ends. */
  ghost predicate Sending(send: (nat, seq<byte>) -> int, data: seq<byte>, first: nat,
                          calls: seq<SendCall>, totalSent: nat, failed: bool)
  {
    && totalSent <= |data|
    && RetryChain(calls, |data|)
    && Answered(send, data, calls, first)
    && (failed <==> |calls| > 0 && calls[|calls| - 1].reply < 0)
    && (!failed ==> forall i :: 0 <= i < |calls| ==> calls[i].reply >= 0)
    && (|calls| == 0 ==> totalSent == 0)
    && (|calls| > 0 && !failed ==> totalSent == calls[|calls| - 1].offset + calls[|calls| - 1].reply)
  }

  /** One more call of `send_data`, handing over the unsent suffix of
      `data`, keeps its state. */
  lemma SendStep(send: (nat, seq<byte>) -> int, data: seq<byte>, first: nat,
                 calls: seq<SendCall>, totalSent: nat, c: SendCall)
    requires SendContract(send)
    requires Sending(send, data, first, calls, totalSent, false) && totalSent < |data|
    requires c == SendCall(totalSent, |data| - totalSent, send(first + |calls|, data[totalSent..]))
    ensures c.reply < 0 ==> Sending(send, data, first, calls + [c], totalSent, true)
    ensures c.reply >= 0 ==> Sending(send, data, first, calls + [c], totalSent + c.reply, false)
  {
    assert Given(data, c) == data[totalSent..];
    RetryChainSnoc(calls, c, |data|);
    AnsweredSnoc(send, data, calls, c, first);
  }

  /** A retry chain grows by one call that passes what the chain left
      unsent. */
  lemma RetryChainSnoc(calls: seq<SendCall>, c: SendCall, n: nat)
    requires RetryChain(calls, n)
    requires 0 < c.request && c.offset + c.request == n && c.reply <= c.request
    requires |calls| == 0 ==> c.offset == 0
    requires |calls| > 0 ==>
               calls[|calls| - 1].reply >= 0
               && c.offset == calls[|calls| - 1].offset + calls[|calls| - 1].reply
    ensures RetryChain(calls + [c], n)
  {
    assert (calls + [c])[..|calls|] == calls;
  }

  /** One more answered call keeps the calls answered. */
  lemma AnsweredSnoc(send: (nat, seq<byte>) -> int, data: seq<byte>, calls: seq<SendCall>,
                     c: SendCall, first: nat)
    requires Answered(send, data, calls, first)
    requires c.reply == send(first + |calls|, Given(data, c))
    ensures Answered(send, data, calls + [c], first)
  {
    assert (calls + [c])[..|calls|] == calls;
  }

  /** The bytes a call of a retry chain over `data` got accepted: the
      first `reply` bytes of what it handed over. */
  function Accepted(data: seq<byte>, c: SendCall): seq<byte>
  {
    if 0 <= c.reply && c.offset + c.reply <= |data|
    then data[c.offset..c.offset + c.reply]
    else []
  }

  /** The bytes of `data` that `send` accepted over a sequence of calls,
      in the order accepted: the pieces of all calls, concatenated. */
  function Delivered(data: seq<byte>, calls: seq<SendCall>): seq<byte>
  {
    if |calls| == 0 then []
    else Delivered(data, calls[..|calls| - 1]) + Accepted(data, calls[|calls| - 1])
  }

  /** Byte fidelity of `send_data`: along a retry chain whose last call
      succeeded, the accepted pieces concatenate to the prefix of `data`
      that ends where the last accepted piece ends. */
  lemma {:induction false} RetryChainDelivers(data: seq<byte>, calls: seq<SendCall>)
    requires RetryChain(calls, |data|)
    requires |calls| > 0 && calls[|calls| - 1].reply >= 0
    ensures var last := calls[|calls| - 1];
            last.offset + last.reply <= |data|
            && Delivered(data, calls) == data[..last.offset + last.reply]
    decreases |calls|
  {
    var init := calls[..|calls| - 1];
    if |init| == 0 {
      assert data[..0] == [];
    } else {
      RetryChainInit(calls, |data|);
      RetryChainDelivers(data, init);
    }
    AppendAccepted(data, Delivered(data, init), calls[|calls| - 1]);
  }

  /** The bytes a successful call accepted extend the prefix that ends
      where the call started. */
  lemma AppendAccepted(data: seq<byte>, sent: seq<byte>, c: SendCall)
    requires 0 <= c.reply && c.offset + c.reply <= |data|
    requires sent == data[..c.offset]
    ensures sent + Accepted(data, c) == data[..c.offset + c.reply]
  {
    PrefixExtend(data, c.offset, c.offset + c.reply);
  }

  /** Dropping the last call of a retry chain leaves a retry chain, whose
      last call ended where the dropped call started. */
  lemma RetryChainInit(calls: seq<SendCall>, n: nat)
    requires RetryChain(calls, n) && |calls| > 1
    ensures RetryChain(calls[..|calls| - 1], n)
    ensures calls[|calls| - 2].reply >= 0
    ensures calls[|calls| - 1].offset == calls[|calls| - 2].offset + calls[|calls| - 2].reply
  {
  }

  /** Two adjacent slices make one. */
  lemma PrefixExtend<T>(s: seq<T>, i: nat, j: nat)
    requires i <= j <= |s|
    ensures s[..i] + s[i..j] == s[..j]
  {
  }

  /** `send_data` returns true exactly when the pieces its calls got
      accepted concatenate to the whole of `data`; when it fails or is
      cut off, they are a proper prefix of `data`. */
  lemma {:induction false} SendDataFidelity(data: seq<byte>, status: SendStatus, calls: seq<SendCall>)
    requires RetryChain(calls, |data|)
    requires status == Sent <==>
               if |calls| == 0 then |data| == 0
               else calls[|calls| - 1].reply == calls[|calls| - 1].request
    ensures status == Sent <==> Delivered(data, calls) == data
    ensures Delivered(data, calls) < data || status == Sent
  {
    if |calls| == 0 {
      assert Delivered(data, calls) == [];
    } else {
      var last := calls[|calls| - 1];
      if last.reply >= 0 {
        RetryChainDelivers(data, calls);
      } else {
        var init := calls[..|calls| - 1];
        if |init| > 0 {
          RetryChainInit(calls, |data|);
          RetryChainDelivers(data, init);
        } else {
          assert Delivered(data, init) == [];
        }
      }
    }
  }

  /** One `send_data` call of the session: the index of its first `send`
      call in the session, its calls, and how it ended. */
  datatype SendRun = SendRun(first: nat, calls: seq<SendCall>, status: SendStatus)

  /** `run` is a `send_data` run over `block`: a retry chain answered by
      the oracle, that returns true exactly when `send` accepted all of
      `block` and false exactly when the last reply was negative. */
  ghost predicate RunOf(send: (nat, seq<byte>) -> int, block: seq<byte>, run: SendRun)
  {
    && RetryChain(run.calls, |block|)
    && Answered(send, block, run.calls, run.first)
    && Delivered(block, run.calls) <= block
    && (run.status == Sent <==> Delivered(block, run.calls) == block)
    && (run.status == SendFailed <==> |run.calls| > 0 && run.calls[|run.calls| - 1].reply < 0)
    && (run.status != SendFailed ==> forall i :: 0 <= i < |run.calls| ==> run.calls[i].reply >= 0)
  }

  /** One call of `send_data` from `snc_transmit`: sends `block` with the
      session's `send` calls numbered from `used` on. */
  method Flush(block: seq<byte>, send: (nat, seq<byte>) -> int, used: nat, fuel: nat)
    returns (run: SendRun)
    requires SendContract(send)
    requires used <= fuel
    ensures run.first == used && used + |run.calls| <= fuel
    ensures RunOf(send, block, run)
    ensures run.status == OutOfFuel ==> used + |run.calls| == fuel
    ensures |block| == 0 ==> run.status == Sent && run.calls == []
  {
    var status, calls := SendData(block, send, used, fuel - used);
    SendDataFidelity(block, status, calls);
    run := SendRun(used, calls, status);
  }

  /** The runs of a session, one per block, each the run over its block. */
  ghost predicate RunsOf(send: (nat, seq<byte>) -> int, flushes: seq<seq<byte>>, runs: seq<SendRun>)
  {
    && |runs| == |flushes|
    && forall j {:trigger RunOf(send, flushes[j], runs[j])} :: 0 <= j < |runs| ==> RunOf(send, flushes[j], runs[j])
  }

  /** The runs' calls are the session's calls `0 .. total - 1`, in order:
      each run starts where the one before it ended. */
  ghost predicate Numbered(runs: seq<SendRun>, total: nat)
    decreases |runs|
  {
    if |runs| == 0 then total == 0
    else
      var last := runs[|runs| - 1];
      total == last.first + |last.calls| && Numbered(runs[..|runs| - 1], last.first)
  }

  /** The `send` log of a session: one `send_data` run per block handed
      over, each the run over its block, whose calls are the session's
      calls `0 .. total - 1`, in order. */
  ghost predicate SendLog(send: (nat, seq<byte>) -> int, flushes: seq<seq<byte>>,
                          runs: seq<SendRun>, total: nat)
  {
    RunsOf(send, flushes, runs) && Numbered(runs, total)
  }

  /** One more run, numbered on from the last, over one more block. */
  lemma SendLogSnoc(send: (nat, seq<byte>) -> int, flushes: seq<seq<byte>>, runs: seq<SendRun>,
                    total: nat, block: seq<byte>, run: SendRun)
    requires SendLog(send, flushes, runs, total)
    requires RunOf(send, block, run) && run.first == total
    ensures SendLog(send, flushes + [block], runs + [run], total + |run.calls|)
  {
    var flushes', runs' := flushes + [block], runs + [run];
    assert runs'[..|runs|] == runs;
    forall j | 0 <= j < |runs'|
      ensures RunOf(send, flushes'[j], runs'[j])
    {
      if j < |runs| {
        assert RunOf(send, flushes[j], runs[j]);
      }
    }
  }

  /** Every run returned true. */
  ghost predicate AllSent(runs: seq<SendRun>)
  {
    forall j :: 0 <= j < |runs| ==> runs[j].status == Sent
  }

  /** Some `send` call of the session returned a negative value. */
  ghost predicate SomeSendFailed(runs: seq<SendRun>)
  {
    exists j, i :: 0 <= j < |runs| && 0 <= i < |runs[j].calls| && runs[j].calls[i].reply < 0
  }

  /** The bytes `send` accepted in each run, block by block. */
  function DeliveredBlocks(flushes: seq<seq<byte>>, runs: seq<SendRun>): seq<seq<byte>>
    requires |runs| == |flushes|
  {
    seq(|runs|, j requires 0 <= j < |runs| => Delivered(flushes[j], runs[j].calls))
  }

  /** What the copy loop of `snc_transmit` did.
      - `consumed`: bytes returned by `fgetc` (the final EOF not counted);
      - `quitSeen`: the loop stopped because the quit flag was set; the
        byte read just before that check is consumed but never stored;
      - `flushes`: the blocks handed to `send_data`, in order (the last
        one is the failing one when `status` is not `Sent`);
      - `runs`: what each of those `send_data` calls did;
      - `sendCalls`: `send` calls issued in all;
      - `reports`: the progress calls made. */
  datatype TransmitLoop = TransmitLoop(
    consumed: nat,
    quitSeen: bool,
    flushes: seq<seq<byte>>,
    runs: seq<SendRun>,
    sendCalls: nat,
    reports: seq<Report>,
    status: SendStatus)

  /** The number of input bytes stored in the block buffer. */
  function Stored(r: TransmitLoop): int
  {
    if r.quitSeen then r.consumed - 1 else r.consumed
  }

  /** What the copy loop of `snc_transmit` and its final flush did, `r`,
      over `input`: how it read (`CopyRead`), what it handed to
      `send_data` and reported (`CopyBlocks`), and what `send` did with
      it (`CopySends`). */
  ghost predicate Copied(r: TransmitLoop, input: seq<byte>, quit: seq<bool>, bufSz: nat,
                         progress: bool, send: (nat, seq<byte>) -> int, fuel: nat)
  {
    && CopyRead(r, input, quit)
    && CopyBlocks(r, input, bufSz, progress)
    && CopySends(r, send, fuel)
  }

  /** The copy read no more than the input; the quit flag was clear at
      every check before a stored byte, and set at the check that stopped
      the loop, if one did; all of the input was read unless the quit
      flag or a failed send stopped it. */
  ghost predicate CopyRead(r: TransmitLoop, input: seq<byte>, quit: seq<bool>)
  {
    && r.consumed <= |input| && 0 <= Stored(r)
    && (r.quitSeen ==> 0 < r.consumed && QuitAt(quit, r.consumed - 1))
    && (forall k :: 0 <= k < Stored(r) ==> !QuitAt(quit, k))
    && (r.status == Sent && !r.quitSeen ==> r.consumed == |input|)
  }

  /** The blocks handed to `send_data` are the stored input bytes, in
      order; all but the last are full, and the last is not full when it
      was sent. A last block that is not full is the final flush, which
      comes only once the input ends or the quit flag is seen; a loop
      stopped by the quit flag ends with that flush, never with a failed
      full block. The
      progress reports are one running total per block but the last,
      then the final total when the last block was sent. */
  ghost predicate CopyBlocks(r: TransmitLoop, input: seq<byte>, bufSz: nat, progress: bool)
  {
    && 0 <= Stored(r) <= |input| && Flatten(r.flushes) == input[..Stored(r)]
    && |r.flushes| > 0
    && (forall i :: 0 <= i < |r.flushes| - 1 ==> |r.flushes[i]| == bufSz)
    && (r.status == Sent ==> |r.flushes[|r.flushes| - 1]| < bufSz)
    && (!r.quitSeen && |r.flushes[|r.flushes| - 1]| < bufSz ==> r.consumed == |input|)
    && (r.quitSeen ==> |r.flushes[|r.flushes| - 1]| < bufSz)
    && (!progress ==> r.reports == [])
    && (progress && r.status == Sent ==>
          r.reports == PartialReports(r.flushes[..|r.flushes| - 1]) + [Final(Stored(r))])
    && (progress && r.status != Sent ==> r.reports == PartialReports(r.flushes[..|r.flushes| - 1]))
  }

  /** With progress on, the in-loop reports count whole buffers: the i-th
      running total is `(i + 1) * bufSz`. */
  lemma InLoopReports(r: TransmitLoop, input: seq<byte>, bufSz: nat, progress: bool)
    requires CopyBlocks(r, input, bufSz, progress) && progress
    ensures |r.reports| >= |r.flushes| - 1
    ensures forall i :: 0 <= i < |r.flushes| - 1 ==> r.reports[i] == Partial((i + 1) * bufSz)
  {
    var blocks := r.flushes[..|r.flushes| - 1];
    PartialReportsOfBlocks(blocks, bufSz);
    assert r.reports[..|blocks|] == PartialReports(blocks);
  }

  /** There is one `send_data` run per block, within the `send` budget;
      every run before the last returned true, so `send` accepted those
      blocks in full, and the last run's result is the copy's. */
  ghost predicate CopySends(r: TransmitLoop, send: (nat, seq<byte>) -> int, fuel: nat)
  {
    && r.sendCalls <= fuel && |r.runs| > 0
    && SendLog(send, r.flushes, r.runs, r.sendCalls)
    && AllSent(r.runs[..|r.runs| - 1]) && r.runs[|r.runs| - 1].status == r.status
    && (forall j :: 0 <= j < |r.flushes| - 1 ==> Delivered(r.flushes[j], r.runs[j].calls) == r.flushes[j])
    && (r.status == OutOfFuel ==> r.sendCalls == fuel)
  }

  /** The copy loop of `snc_transmit` and its final flush, which sends
      whatever the buffer holds (possibly nothing) and reports the final
      total. `quit[k]` is the quit flag at the check that follows the k-th
      byte read. */
  method CopyToSocket(input: seq<byte>, quit: seq<bool>, bufSz: nat, progress: bool,
                      send: (nat, seq<byte>) -> int, fuel: nat)
    returns (r: TransmitLoop)
    requires bufSz > 0
    requires SendContract(send)
    ensures Copied(r, input, quit, bufSz, progress, send, fuel)
  {
    var loop, p := BlockLoop(input, quit, bufSz, progress, send, fuel);
    if loop.status != Sent {
      FailedLoopCopied(loop, p, input, quit, bufSz, progress, send, fuel);
      return loop;
    }
    var run := Flush(p.buf, send, p.used, fuel);
    FinalFlushCopied(loop, p, run, input, quit, bufSz, progress, send, fuel);
    r := Finished(loop, p, run, progress);
  }

  /** Every run before the last returned true, so `send` accepted each of
      those blocks in full. */
  lemma SentBlocksDelivered(send: (nat, seq<byte>) -> int, flushes: seq<seq<byte>>,
                            runs: seq<SendRun>, total: nat)
    requires SendLog(send, flushes, runs, total) && |runs| > 0
    requires AllSent(runs[..|runs| - 1])
    ensures forall j :: 0 <= j < |flushes| - 1 ==> Delivered(flushes[j], runs[j].calls) == flushes[j]
  {
    forall j | 0 <= j < |flushes| - 1
      ensures Delivered(flushes[j], runs[j].calls) == flushes[j]
    {
      assert RunOf(send, flushes[j], runs[j]);
      assert runs[..|runs| - 1][j] == runs[j];
    }
  }

  /** A copy loop stopped by a failed flush is the whole of the copy: the
      failing block is the last one handed to `send_data`, and the final
      flush is not reached. */
  lemma FailedLoopCopied(loop: TransmitLoop, p: Pending, input: seq<byte>, quit: seq<bool>,
                         bufSz: nat, progress: bool, send: (nat, seq<byte>) -> int, fuel: nat)
    requires LoopExit(loop, p, input, quit, bufSz, progress, send, fuel) && loop.status != Sent
    ensures Copied(loop, input, quit, bufSz, progress, send, fuel)
  {
    SentBlocksDelivered(send, loop.flushes, loop.runs, loop.sendCalls);
  }

  /** The copy once the final flush has sent the leftover buffer `p.buf`
      with `run`. */
  function Finished(loop: TransmitLoop, p: Pending, run: SendRun, progress: bool): TransmitLoop
  {
    TransmitLoop(loop.consumed, loop.quitSeen, p.flushes + [p.buf], p.runs + [run],
                 p.used + |run.calls|, FinalReports(p, progress, run.status == Sent), run.status)
  }

  /** After a normal exit from the copy loop, sending the leftover buffer
      completes the copy: the buffer is the last block, its run the last
      run, and the final total is the number of bytes stored. */
  lemma FinalFlushCopied(loop: TransmitLoop, p: Pending, run: SendRun, input: seq<byte>,
                         quit: seq<bool>, bufSz: nat, progress: bool,
                         send: (nat, seq<byte>) -> int, fuel: nat)
    requires LoopExit(loop, p, input, quit, bufSz, progress, send, fuel) && loop.status == Sent
    requires RunOf(send, p.buf, run) && run.first == p.used && p.used + |run.calls| <= fuel
    requires run.status == OutOfFuel ==> p.used + |run.calls| == fuel
    ensures Copied(Finished(loop, p, run, progress), input, quit, bufSz, progress, send, fuel)
  {
    var r := Finished(loop, p, run, progress);
    assert Stored(r) == Stored(loop);
    FinalSends(r, p, run, send, fuel);
    FinalShape(r, p, input, bufSz, progress);
  }

  /** The final flush's run, after runs that all sent their blocks,
      completes the session's `send` log. */
  lemma FinalSends(r: TransmitLoop, p: Pending, run: SendRun, send: (nat, seq<byte>) -> int, fuel: nat)
    requires SendLog(send, p.flushes, p.runs, p.used) && AllSent(p.runs)
    requires RunOf(send, p.buf, run) && run.first == p.used && p.used + |run.calls| <= fuel
    requires run.status == OutOfFuel ==> p.used + |run.calls| == fuel
    requires r.flushes == p.flushes + [p.buf] && r.runs == p.runs + [run]
    requires r.sendCalls == p.used + |run.calls| && r.status == run.status
    ensures CopySends(r, send, fuel)
  {
    SendLogSnoc(send, p.flushes, p.runs, p.used, p.buf, run);
    assert r.runs[..|p.runs|] == p.runs;
    SentBlocksDelivered(send, r.flushes, r.runs, r.sendCalls);
  }

  /** The progress reports once the leftover buffer has been sent: the
      final total is reported when progress is on and the send succeeded. */
  function FinalReports(p: Pending, progress: bool, sent: bool): seq<Report>
  {
    if progress then p.reports + (if sent then [Final(p.total + |p.buf|)] else []) else []
  }

  /** The leftover buffer completes the stored input, and the final total
      is the number of bytes stored. */
  lemma FinalShape(r: TransmitLoop, p: Pending, input: seq<byte>, bufSz: nat, progress: bool)
    requires 0 <= Stored(r) && Filled(p, input, Stored(r), bufSz, progress)
    requires r.flushes == p.flushes + [p.buf]
    requires r.reports == FinalReports(p, progress, r.status == Sent)
    requires r.status == Sent ==> |p.buf| < bufSz
    requires !r.quitSeen ==> r.consumed == |input|
    ensures CopyBlocks(r, input, bufSz, progress)
  {
    FlattenSnoc(p.flushes, p.buf);
    assert r.flushes[..|p.flushes|] == p.flushes;
    if progress && r.status != Sent {
      assert p.reports + [] == p.reports;
    }
  }

  /** The state of the `while` loop of `snc_transmit` between reads, with
      `r` what it did so far and `p` the buffer state:
      - it read no more than the input and issued no more `send` calls
        than the budget allows;
      - the quit flag was clear at every check before a stored byte, and
        set at the check that stopped the loop, if one did;
      - while the flushes succeed the buffer invariant holds for the bytes
        stored; once one fails, the stored bytes are all in full blocks,
        the last of which went to the failing run. */
  ghost predicate Reading(r: TransmitLoop, p: Pending, input: seq<byte>, quit: seq<bool>,
                          bufSz: nat, progress: bool, send: (nat, seq<byte>) -> int, fuel: nat)
  {
    && r.consumed <= |input| && p.used <= fuel
    && r.flushes == p.flushes && r.runs == p.runs
    && r.sendCalls == p.used && r.reports == p.reports
    && (r.quitSeen ==> 0 < r.consumed && QuitAt(quit, r.consumed - 1))
    && (forall k :: 0 <= k < Stored(r) ==> !QuitAt(quit, k))
    && 0 <= Stored(r)
    && (r.status == OutOfFuel ==> r.sendCalls == fuel)
    && (r.status == Sent ==> Buffered(p, input, Stored(r), bufSz, progress, send))
    && (r.status != Sent ==>
          !r.quitSeen && FailedFlush(p, input, Stored(r), bufSz, progress, send, r.status))
  }

  /** How the `while` loop of `snc_transmit` leaves off: in a state of
      `Reading`, having read all of the input unless the quit flag or a
      failed flush stopped it. */
  ghost predicate LoopExit(r: TransmitLoop, p: Pending, input: seq<byte>, quit: seq<bool>,
                           bufSz: nat, progress: bool, send: (nat, seq<byte>) -> int, fuel: nat)
  {
    && Reading(r, p, input, quit, bufSz, progress, send, fuel)
    && (r.status == Sent && !r.quitSeen ==> r.consumed == |input|)
  }

  /** The `while` loop of `snc_transmit`: reads bytes until end of input
      or until the quit flag is seen, storing each into the block buffer
      and sending the buffer whenever it is full. A flush that does not
      return true ends the loop (`CLEANUP_AND_DIE`). */
  method BlockLoop(input: seq<byte>, quit: seq<bool>, bufSz: nat, progress: bool,
                   send: (nat, seq<byte>) -> int, fuel: nat)
    returns (r: TransmitLoop, p: Pending)
    requires bufSz > 0
    requires SendContract(send)
    ensures LoopExit(r, p, input, quit, bufSz, progress, send, fuel)
  {
    r := TransmitLoop(0, false, [], [], 0, [], Sent);
    p := Pending([], [], 0, [], 0, []);
    ReadingStart(input, quit, bufSz, progress, send, fuel);
    while r.consumed < |input| && !r.quitSeen && r.status == Sent
      invariant Reading(r, p, input, quit, bufSz, progress, send, fuel)
      decreases |input| - r.consumed
    {
      if QuitAt(quit, r.consumed) {  // the byte fgetc returned is dropped
        ReadingQuit(r, p, input, quit, bufSz, progress, send, fuel);
        r := r.(consumed := r.consumed + 1, quitSeen := true);
      } else {
        var stored := Stored(r);
        var q, st := StoreByte(p, input, stored, bufSz, progress, send, fuel);
        ReadingStore(r, p, q, st, input, quit, bufSz, progress, send, fuel);
        r, p := TransmitLoop(r.consumed + 1, false, q.flushes, q.runs, q.used, q.reports, st), q;
      }
    }
  }

  /** Before the first read nothing is stored or sent. */
  lemma ReadingStart(input: seq<byte>, quit: seq<bool>, bufSz: nat, progress: bool,
                     send: (nat, seq<byte>) -> int, fuel: nat)
    requires bufSz > 0
    ensures Reading(TransmitLoop(0, false, [], [], 0, [], Sent), Pending([], [], 0, [], 0, []),
                    input, quit, bufSz, progress, send, fuel)
  {
    assert input[..0] == [];
  }

  /** Storing the byte just read, and flushing when the buffer fills,
      keeps the loop state. */
  lemma ReadingStore(r: TransmitLoop, p: Pending, q: Pending, st: SendStatus, input: seq<byte>,
                     quit: seq<bool>, bufSz: nat, progress: bool,
                     send: (nat, seq<byte>) -> int, fuel: nat)
    requires Reading(r, p, input, quit, bufSz, progress, send, fuel)
    requires !r.quitSeen && r.status == Sent && r.consumed < |input| && !QuitAt(quit, r.consumed)
    requires p.used <= q.used <= fuel && (st == OutOfFuel ==> q.used == fuel)
    requires st == Sent ==> Buffered(q, input, Stored(r) + 1, bufSz, progress, send)
    requires st != Sent ==> FailedFlush(q, input, Stored(r) + 1, bufSz, progress, send, st)
    ensures Reading(TransmitLoop(r.consumed + 1, false, q.flushes, q.runs, q.used, q.reports, st),
                    q, input, quit, bufSz, progress, send, fuel)
  {
  }

  /** Seeing the quit flag set keeps the loop state; the byte just read
      is not stored. */
  lemma ReadingQuit(r: TransmitLoop, p: Pending, input: seq<byte>, quit: seq<bool>,
                    bufSz: nat, progress: bool, send: (nat, seq<byte>) -> int, fuel: nat)
    requires Reading(r, p, input, quit, bufSz, progress, send, fuel)
    requires !r.quitSeen && r.status == Sent && r.consumed < |input| && QuitAt(quit, r.consumed)
    ensures Reading(r.(consumed := r.consumed + 1, quitSeen := true), p, input, quit, bufSz, progress, send, fuel)
  {
  }

  /** The state of the block buffer between reads: the blocks sent so
      far and the `send_data` runs that sent them, the number of `send`
      calls issued, the bytes waiting in the buffer, the progress counter
      and the progress reports made. */
  datatype Pending = Pending(flushes: seq<seq<byte>>, runs: seq<SendRun>, used: nat,
                             buf: seq<byte>, total: nat, reports: seq<Report>)

  /** `p` holds the first `stored` input bytes: the full blocks sent so
      far followed by a buffer that is not yet full, with one running
      total reported per block when progress is on. */
  ghost predicate Filled(p: Pending, input: seq<byte>, stored: nat, bufSz: nat, progress: bool)
  {
    && stored <= |input|
    && Flatten(p.flushes) + p.buf == input[..stored]
    && |p.buf| < bufSz
    && (forall i :: 0 <= i < |p.flushes| ==> |p.flushes[i]| == bufSz)
    && p.total == (if progress then |Flatten(p.flushes)| else 0)
    && p.reports == (if progress then PartialReports(p.flushes) else [])
  }

  /** The buffer state between reads: `p` holds the first `stored` input
      bytes, and every block went out whole through `send`. */
  ghost predicate Buffered(p: Pending, input: seq<byte>, stored: nat, bufSz: nat, progress: bool,
                           send: (nat, seq<byte>) -> int)
  {
    Filled(p, input, stored, bufSz, progress) && SendLog(send, p.flushes, p.runs, p.used) && AllSent(p.runs)
  }

  /** The first `stored` input bytes as full blocks, with one running
      total reported per block but the last. */
  ghost predicate Blocks(q: Pending, input: seq<byte>, stored: nat, bufSz: nat, progress: bool)
  {
    && stored <= |input|
    && |q.flushes| > 0
    && Flatten(q.flushes) == input[..stored]
    && (forall i :: 0 <= i < |q.flushes| ==> |q.flushes[i]| == bufSz)
    && q.reports == (if progress then PartialReports(q.flushes[..|q.flushes| - 1]) else [])
  }

  /** `q` holds the first `stored` input bytes as full blocks, the last of
      which was just handed to a `send_data` run that ended with `st`;
      the runs before it all sent their blocks, and only those blocks
      were reported. */
  ghost predicate FailedFlush(q: Pending, input: seq<byte>, stored: nat, bufSz: nat, progress: bool,
                              send: (nat, seq<byte>) -> int, st: SendStatus)
  {
    && Blocks(q, input, stored, bufSz, progress)
    && SendLog(send, q.flushes, q.runs, q.used)
    && AllSent(q.runs[..|q.runs| - 1])
    && q.runs[|q.runs| - 1].status == st
  }

  /** One pass of the copy loop's body once a byte has been read: store
      it, and when the buffer is full send it with `send_data`, report
      the running total and empty the buffer. */
  method StoreByte(p: Pending, input: seq<byte>, stored: nat, bufSz: nat, progress: bool,
                   send: (nat, seq<byte>) -> int, fuel: nat)
    returns (q: Pending, st: SendStatus)
    requires SendContract(send) && p.used <= fuel
    requires stored < |input| && Buffered(p, input, stored, bufSz, progress, send)
    ensures p.used <= q.used <= fuel
    ensures st == OutOfFuel ==> q.used == fuel
    // a byte that does not fill the buffer is only stored
    ensures |p.buf| + 1 < bufSz ==> st == Sent && q == p.(buf := p.buf + [input[stored]])
    // a byte that fills it makes the next block, and the flush's result is the step's
    ensures |p.buf| + 1 >= bufSz ==>
              && q.flushes == p.flushes + [p.buf + [input[stored]]]
              && |q.runs| == |p.runs| + 1 && q.runs[..|p.runs|] == p.runs
              && q.runs[|p.runs|].first == p.used && q.runs[|p.runs|].status == st
    ensures st == Sent ==> Buffered(q, input, stored + 1, bufSz, progress, send)
    ensures st != Sent ==> FailedFlush(q, input, stored + 1, bufSz, progress, send, st)
  {
    var block := p.buf + [input[stored]];
    if |block| < bufSz {
      BufferedPush(p, input, stored, bufSz, progress, send);
      return p.(buf := block), Sent;
    }
    var run := Flush(block, send, p.used, fuel);
    BufferedBlock(p, input, stored, bufSz, progress, send, run);
    var next := AfterFlush(p, block, run, progress);
    if run.status != Sent {
      return next.(total := p.total, reports := p.reports), run.status;
    }
    q, st := next, Sent;
  }

  /** The buffer state once `block` has been sent from it by `run`. */
  function AfterFlush(p: Pending, block: seq<byte>, run: SendRun, progress: bool): Pending
  {
    var total := if progress then p.total + |block| else 0;
    Pending(p.flushes + [block], p.runs + [run], p.used + |run.calls|, [], total,
            if progress then p.reports + [Partial(total)] else [])
  }

  /** Storing one more byte into a buffer that does not fill up. */
  lemma BufferedPush(p: Pending, input: seq<byte>, stored: nat, bufSz: nat, progress: bool,
                     send: (nat, seq<byte>) -> int)
    requires stored < |input| && Buffered(p, input, stored, bufSz, progress, send)
    requires |p.buf| + 1 < bufSz
    ensures Buffered(p.(buf := p.buf + [input[stored]]), input, stored + 1, bufSz, progress, send)
  {
    assert input[..stored + 1] == input[..stored] + [input[stored]];
  }

  /** Storing one more byte into a buffer that fills up: the full buffer
      is the next block of the input, and sending it leaves an empty
      buffer. */
  lemma FilledBlock(p: Pending, input: seq<byte>, stored: nat, bufSz: nat, progress: bool, run: SendRun)
    requires stored < |input| && Filled(p, input, stored, bufSz, progress)
    requires |p.buf| + 1 >= bufSz
    ensures var q := AfterFlush(p, p.buf + [input[stored]], run, progress);
            && Filled(q, input, stored + 1, bufSz, progress)
            && Blocks(q.(total := p.total, reports := p.reports), input, stored + 1, bufSz, progress)
  {
    var block := p.buf + [input[stored]];
    var q := AfterFlush(p, block, run, progress);
    assert input[..stored + 1] == input[..stored] + [input[stored]];
    FlattenSnoc(p.flushes, block);
    PartialReportsSnoc(p.flushes, block);
    assert q.flushes[..|p.flushes|] == p.flushes;
  }

  /** Sending the full buffer with `run`: a run that returned true keeps
      the buffer invariant; any other run leaves the blocks as they stand
      with the run as the last of the log. */
  lemma BufferedBlock(p: Pending, input: seq<byte>, stored: nat, bufSz: nat, progress: bool,
                      send: (nat, seq<byte>) -> int, run: SendRun)
    requires stored < |input| && Buffered(p, input, stored, bufSz, progress, send)
    requires |p.buf| + 1 >= bufSz
    requires RunOf(send, p.buf + [input[stored]], run) && run.first == p.used
    ensures var q := AfterFlush(p, p.buf + [input[stored]], run, progress);
            && (run.status == Sent ==> Buffered(q, input, stored + 1, bufSz, progress, send))
            && (run.status != Sent ==>
                  FailedFlush(q.(total := p.total, reports := p.reports),
                              input, stored + 1, bufSz, progress, send, run.status))
  {
    var block := p.buf + [input[stored]];
    var q := AfterFlush(p, block, run, progress);
    FilledBlock(p, input, stored, bufSz, progress, run);
    SendLogSnoc(send, p.flushes, p.runs, p.used, block, run);
    assert q.runs[..|p.runs|] == p.runs;
  }

  /** The copy as the rest of `snc_transmit` sees it: what `CopyToSocket`
      promises; in addition, some `send` reply was negative exactly when
      the copy failed, and when it succeeded, `send` accepted the stored
      input bytes, in order, which are all of the input unless the quit
      flag stopped the loop. */
  method Transfer(input: seq<byte>, quit: seq<bool>, bufSz: nat, progress: bool,
                  send: (nat, seq<byte>) -> int, fuel: nat)
    returns (r: TransmitLoop)
    requires bufSz > 0
    requires SendContract(send)
    ensures Copied(r, input, quit, bufSz, progress, send, fuel)
    ensures SendLog(send, r.flushes, r.runs, r.sendCalls)
    ensures SomeSendFailed(r.runs) <==> r.status == SendFailed
    ensures r.status == Sent ==>
              && 0 <= Stored(r) <= |input|
              && Flatten(r.flushes) == input[..Stored(r)]
              && Flatten(DeliveredBlocks(r.flushes, r.runs)) == input[..Stored(r)]
              && (!r.quitSeen ==> Flatten(DeliveredBlocks(r.flushes, r.runs)) == input)
  {
    r := CopyToSocket(input, quit, bufSz, progress, send, fuel);
    FailedIffNegativeReply(send, r.flushes, r.runs, r.sendCalls);
    if r.status == Sent {
      ReturnedDelivers(send, input, r);
    }
  }

  /** The setup calls of `snc_transmit`, in order. */
  const TransmitSteps: seq<Step> := [Resolve, CreateSocket, Connect, Allocate]

  /** One run of `snc_transmit`: setup, the copy loop when setup
      succeeded, the cleanup block, and how the process goes on. */
  datatype TransmitSession = TransmitSession(
    setup: SetupRun,
    loop: Option<TransmitLoop>,
    released: seq<Resource>,
    outcome: Outcome)

  /** `snc_transmit`. `setupResults[i]` is the result of the i-th setup
      call if it is reached; the other parameters are those of
      `CopyToSocket`. */
  method SncTransmit(setupResults: seq<bool>, input: seq<byte>, quit: seq<bool>, bufSz: nat,
                     progress: bool, send: (nat, seq<byte>) -> int, fuel: nat)
    returns (s: TransmitSession)
    requires |setupResults| == |TransmitSteps|
    requires bufSz > 0
    requires SendContract(send)
    ensures |s.setup.performed| <= |TransmitSteps|
    ensures s.setup.performed == TransmitSteps[..|s.setup.performed|]
    ensures s.loop.Some? <==> forall i :: 0 <= i < |setupResults| ==> setupResults[i]
    ensures s.loop.Some? ==> s.setup.performed == TransmitSteps
    ensures s.loop.None? ==>
              && 0 < |s.setup.performed|
              && !setupResults[|s.setup.performed| - 1]
              && s.outcome == ExitFailure
    // the copy read the input, handed it to send_data in blocks and spent
    // the send budget as CopyToSocket says
    ensures s.loop.Some? ==> Copied(s.loop.value, input, quit, bufSz, progress, send, fuel)
    // every send call of the session belongs to one send_data run over one block
    ensures s.loop.Some? ==> SendLog(send, s.loop.value.flushes, s.loop.value.runs, s.loop.value.sendCalls)
    ensures s.outcome == Unfinished <==> s.loop.Some? && s.loop.value.status == OutOfFuel
    // once connected, the process exits with status 1 exactly when some send failed
    ensures s.outcome == ExitFailure <==> s.loop.None? || SomeSendFailed(s.loop.value.runs)
    // a normal return has had every stored byte accepted by send, in order,
    // and all of the input unless the quit flag stopped the loop
    ensures s.outcome == Returned ==>
              && s.loop.Some?
              && 0 <= Stored(s.loop.value) <= |input|
              && Flatten(s.loop.value.flushes) == input[..Stored(s.loop.value)]
              && Flatten(DeliveredBlocks(s.loop.value.flushes, s.loop.value.runs)) == input[..Stored(s.loop.value)]
              && (!s.loop.value.quitSeen ==>
                    Flatten(DeliveredBlocks(s.loop.value.flushes, s.loop.value.runs)) == input)
    ensures s.outcome == Unfinished ==> s.released == []
    ensures s.outcome != Unfinished ==>
              forall res :: multiset(s.released)[res]
                            == (if res in Acquired(s.setup.performed, setupResults) then 1 else 0)
  {
    var setup := RunSetup(TransmitSteps, setupResults);
    assert setup.ok <==> forall i :: 0 <= i < |setupResults| ==> setupResults[i];
    var held := Acquired(setup.performed, setupResults);
    CleanupReleasesHeldOnce(held);
    if !setup.ok {
      return TransmitSession(setup, None, Cleanup(held), ExitFailure);
    }
    var loop := Transfer(input, quit, bufSz, progress, send, fuel);
    // a send_data that is still retrying has not reached the cleanup block
    var outcome := match loop.status
      case Sent => Returned
      case SendFailed => ExitFailure
      case OutOfFuel => Unfinished;
    s := TransmitSession(setup, Some(loop), if outcome == Unfinished then [] else Cleanup(held), outcome);
  }

  /** A session's `send_data` runs, all but the last of which sent their
      blocks, hit a negative `send` reply exactly when the last run
      returned false. */
  lemma FailedIffNegativeReply(send: (nat, seq<byte>) -> int, flushes: seq<seq<byte>>,
                               runs: seq<SendRun>, total: nat)
    requires SendLog(send, flushes, runs, total) && |runs| > 0
    requires AllSent(runs[..|runs| - 1])
    ensures SomeSendFailed(runs) <==> runs[|runs| - 1].status == SendFailed
  {
    var last := runs[|runs| - 1];
    if last.status == SendFailed {
      assert RunOf(send, flushes[|runs| - 1], last);
      assert last.calls[|last.calls| - 1].reply < 0;
    } else {
      forall j, i | 0 <= j < |runs| && 0 <= i < |runs[j].calls|
        ensures runs[j].calls[i].reply >= 0
      {
        assert RunOf(send, flushes[j], runs[j]);
        if j < |runs| - 1 {
          assert runs[..|runs| - 1][j] == runs[j];
        }
      }
    }
  }

  /** When the last run returned true as well, `send` accepted every
      block in full. */
  lemma AllBlocksDelivered(send: (nat, seq<byte>) -> int, flushes: seq<seq<byte>>,
                           runs: seq<SendRun>, total: nat)
    requires SendLog(send, flushes, runs, total) && |runs| > 0
    requires AllSent(runs[..|runs| - 1]) && runs[|runs| - 1].status == Sent
    ensures forall j :: 0 <= j < |flushes| ==> Delivered(flushes[j], runs[j].calls) == flushes[j]
  {
    SentBlocksDelivered(send, flushes, runs, total);
    assert RunOf(send, flushes[|runs| - 1], runs[|runs| - 1]);
  }

  /** When `send` accepted every block in full, the bytes accepted, block
      by block, are the blocks. */
  lemma WholeBlocksDelivered(flushes: seq<seq<byte>>, runs: seq<SendRun>)
    requires |runs| == |flushes|
    requires forall j :: 0 <= j < |runs| ==> Delivered(flushes[j], runs[j].calls) == flushes[j]
    ensures DeliveredBlocks(flushes, runs) == flushes
  {
  }

  /** When every run of a copy loop returned true, the bytes `send`
      accepted are exactly the stored input bytes, in order, and all of
      the input when the quit flag did not stop the loop. */
  lemma ReturnedDelivers(send: (nat, seq<byte>) -> int, input: seq<byte>, loop: TransmitLoop)
    requires SendLog(send, loop.flushes, loop.runs, loop.sendCalls) && |loop.runs| > 0
    requires AllSent(loop.runs[..|loop.runs| - 1]) && loop.runs[|loop.runs| - 1].status == Sent
    requires 0 <= Stored(loop) <= |input| && Flatten(loop.flushes) == input[..Stored(loop)]
    requires !loop.quitSeen ==> loop.consumed == |input|
    ensures Flatten(DeliveredBlocks(loop.flushes, loop.runs)) == input[..Stored(loop)]
    ensures !loop.quitSeen ==> Flatten(DeliveredBlocks(loop.flushes, loop.runs)) == input
  {
    AllBlocksDelivered(send, loop.flushes, loop.runs, loop.sendCalls);
    WholeBlocksDelivered(loop.flushes, loop.runs);
    if !loop.quitSeen {
      assert input[..Stored(loop)] == input;
    }
  }
}

=== FILE: wrappers.dfy ===
/** The Option and Result types used across the model. */
module Wrappers {

  /** A value that may be absent: a C pointer that may be NULL, or an
      abstract parse that may fail. */
  datatype Option<+T> = None | Some(value: T)

  /** The outcome of an operation that either yields a value or an error. */
  datatype Result<+R, +E> = Success(value: R) | Failure(error: E)
}
